=== FILE: README.md ===
# Network Genius chat assistant — bookkeeping model

The application is a single-page chat assistant that answers networking questions from one
uploaded PDF manual, using a hosted generation service. Under its page rendering sits a small
amount of sequential bookkeeping, which this project models as pure functions over sequences:

- **History** (`history.dfy`): the `chat_history.json` log of `{timestamp, user, ai}` records,
  capped at the newest 20. It covers saving, clearing, creating the file at startup, and the
  sidebar's newest-first viewer with its 16-character timestamp labels.
- **Catalog** (`catalog.dfy`): the model selector. Listed models are kept when they support
  `generateContent` and their name contains `gemini`. A listing failure falls back to
  `models/gemini-1.5-flash`. The default is the first name containing `flash` and `1.5`,
  else index 0. An empty list falls back to `models/gemini-pro`.
- **Transcript** (`transcript.dfy`): the history a chat is started with. It is a seed turn (the
  document plus an instruction to answer from it) followed by every session message except the
  newest, with `assistant` renamed to `model`.
- **Session** (`session.dfy`): one run of the chat panel. Typed input wins over a staged
  suggestion. The user turn is appended before any remote work. A missing document means
  nothing is sent. A completed stream appends the answer and saves one record. An exception is
  classified by `429`, then `404`, then generic. Reset clears the messages; clear-history clears
  the messages and the log.
- **Text** (`text.dfy`) and **Optional** (`optional.dfy`): Python's substring test, single
  character `replace`, `s[:n]`, and `None`/truthiness.

The history file is modelled by its decoded content (`Missing`, `Unreadable`, or `Stored`).
The clock is a `timestamp` parameter. The service is modelled by its answer: a `Reply`, either
the streamed chunks or an exception's text. The selected model and the upload's outcome are
parameters too.

Notes on the source:

- Clear-history rewrites the file only when it exists (app.py:246). Every interaction re-runs the
  page from the top, and app.py:21-24 recreates a missing file first, so `Session.Step` starts
  from `History.EnsureFile`. The `Missing` branches of `History.ClearHistory` and
  `History.SidebarView` therefore cannot occur after startup.
- The second error class is any text containing `404`, reported as a model this key cannot use
  (app.py:391-392).

## Model

| member | source | states |
|---|---|---|
| Text.Contains | app.py:174 | Python's `sub in s`: true exactly when `sub` occurs at some index of `s` |
| History.EnsureFile | app.py:21-24 | a missing history file becomes one holding `[]`; any other file is left as it was |
| History.SaveHistory | app.py:158-166 | the saved log holds min(20, old+1) records: the new record is last, preceded by the newest old records in order; an unreadable or missing file gives a one-record log |
| History.SaveAllKeepsNewest | app.py:164-166 | any non-empty run of saves leaves the newest 20 of the old records and the saved ones together, old first, in order |
| History.SaveManyEvictsOldest | app.py:164-166 | after at least 20 saves only the newest 20 saved exchanges remain, oldest evicted first |
| History.ClearHistory | app.py:244-248 | after clearing nothing is readable; a missing file stays missing, an existing one becomes `[]` |
| History.StampLabel | app.py:265 | the label is the first min(16, len) characters of the timestamp, with every `T` shown as a space |
| History.NewestFirst | app.py:264 | the rows are the records one for one in reverse order |
| History.SidebarView | app.py:257-273 | missing file shows the creation caption, unreadable shows the damage error, stored records show newest first |
| History.ClearedViewIsEmpty | app.py:244-273 | after clearing the viewer shows no record |
| Catalog.UsableNames | app.py:171-176 | a name is offered exactly when some listed model supporting `generateContent` has it and it contains `gemini` |
| Catalog.UsableNamesAppend | app.py:172-175 | filtering respects concatenation, so offered names keep the listing order |
| Catalog.AvailableModels | app.py:169-178 | a failed listing yields only `models/gemini-1.5-flash`; otherwise exactly the usable names |
| Catalog.DefaultSelection | app.py:205-215 | the default index is in bounds, is the least index of a name with `flash` and `1.5`, or 0 if none; an empty list selects `models/gemini-pro` |
| Transcript.ServiceRole | app.py:371 | the service role is `model` exactly for `assistant` messages and `user` for every other role |
| Transcript.ReplayAll | app.py:370-372 | each message becomes one turn, in order, carrying its content |
| Transcript.Prior | app.py:370 | `messages[:-1]`: the messages without the newest |
| Transcript.BuildHistory | app.py:369-372 | the history is the seed turn followed by one turn per message except the newest, in order: each carries the message content, with role `model` for `assistant` messages and `user` for every other role |
| Transcript.HistoryRecoversMessages | app.py:369-372 | when a message is sent, the history is the seed turn then one turn per earlier message in order; its texts and roles give those messages back, none added or dropped |
| Transcript.ReplayAllAppend | app.py:370-372 | replaying a longer session only extends the history at its end |
| Session.Start | app.py:282 | a new session has no messages and nothing staged, and keeps the upload's handle; a missing history file becomes `[]`, any other is kept |
| Session.ResolvePrompt | app.py:317-323 | typed input wins; otherwise the staged prompt is used and removed; the staged prompt is removed exactly when it is used; with neither there is no prompt |
| Session.Accumulate | app.py:377-383 | the reply built by skipping empty chunks equals all chunks joined in order |
| Session.Classify | app.py:387-394 | quota error exactly when the text contains `429`, unavailable model exactly when it contains `404` and not `429`, else the raw text; both named errors carry the model |
| Session.Submit | app.py:317-331 | the prompt comes from prompt resolution; without a non-empty prompt nothing changes and nothing is sent; with one the user turn is appended, the service is called only if there is a document, and only a completed stream changes the log |
| Session.Ask | app.py:328-397 | the user turn is appended first; the service is called exactly when there is a document, with every earlier message replayed in order after the seed turn; a completed stream appends the answer and saves one record; otherwise the log is unchanged and the user turn is last; an exception is classified, a missing document reports the lost connection |
| Session.StagePrompt | app.py:286-310 | a suggestion click stages that prompt only on the welcome screen, and changes nothing else |
| Session.SuggestionIsSubmitted | app.py:298-321 | a staged suggestion is submitted by the next run without typed input and is then gone |
| Session.Step | app.py:237-251 | every event first recreates a missing history file as `[]`, as the re-run of the startup check does; reset and a suggestion click change the log only by that; clear-history empties the messages and leaves the file holding `[]`; reset keeps the log's records; no event breaks the 20-record cap |
| Session.RunKeepsInvariants | app.py:158-166 | over any sequence of events the cap on the log holds, the history file exists after the first event, and the document handle is kept |
| Session.StartedSessionLogBounded | app.py:21-24 | a session started on a history file holding at most 20 records (missing, unreadable or empty included) never holds more, and its file never goes missing |

## Left out

- Page rendering, CSS, widgets, `st.rerun` and `st.cache_resource`: framework behaviour. Each interaction is one `Session.Step` or two: every Step starts with the startup file check that the re-run repeats, and a suggestion click is `SuggestionClicked` followed at once by `Render` with no typed input, because its `st.rerun()` starts the next run immediately (the pair `Session.SuggestionIsSubmitted` states). `Session.Run` accepts any order of events, including orders no user can produce (a click followed by a reset, which would keep a staged prompt); this over-approximation does not affect the invariants it proves.
- Several browser sessions of one process share the single history file (app.py:16), and `save_history` reads, modifies and writes it without locking, so two sessions can lose a record. The model pairs one session with the log and has no other writer. The 20-record cap would still hold under any interleaving, because every write is capped.
- The generation service: listing, upload with its `PROCESSING` polling loop, `start_chat` and streaming. Its answers are parameters: a `Listing`, an optional `FileHandle`, and a `Reply`.
- Generation config, safety settings and the system instruction: constants handed to the service library.
- File I/O, JSON encoding, `os.path.exists` and `datetime.now()`. The file is its decoded content; the timestamp is a parameter.
- History file content that decodes as JSON but is not an array. In the source `save_history` then raises inside the turn's `try`, after the answer was appended. Array elements that are not records are also not modelled.
- The typing-effect sleep and cursor redraws, and partial text shown before a mid-stream exception. They are visual only; the session is unchanged by them.
- The user-facing wording of the errors: the Thai wording of the quota and unavailable-model errors, which name the model, is not kept; `Notice` keeps only the kind and the model. The other two are the raw error text after `Error: ` and the fixed English message "Connection Lost. Please refresh.".
- The missing-credential stop at startup, which happens before any session exists.
- prompt.py: string constants that app.py does not reference.

=== FILE: catalog.dfy ===
/** The model selector: which listed models are offered, and which one is selected by default. */
module Catalog {
  import opened Text

  /** A model descriptor as the service lists it. */
  datatype ModelInfo = ModelInfo(name: string, supportedMethods: seq<string>)

  /** The outcome of asking the service for its models: the full listing, or an exception. */
  datatype Listing = Listed(models: seq<ModelInfo>) | ListingFailed

  /** Offered when listing the models raises. */
  const FallbackModel := "models/gemini-1.5-flash"

  /** Used when the offered list is empty. */
  const NoModelsChoice := "models/gemini-pro"

  /** A model is offered when it can generate content and its name mentions `gemini`. */
  predicate Usable(m: ModelInfo)
  {
    "generateContent" in m.supportedMethods && Contains(m.name, "gemini")
  }

  /** The names of the usable models, in listing order. */
  function UsableNames(ms: seq<ModelInfo>): (names: seq<string>)
    ensures |names| <= |ms|
    ensures forall n :: n in names ==> exists m :: m in ms && Usable(m) && m.name == n
    ensures forall m :: m in ms && Usable(m) ==> m.name in names
  {
    if |ms| == 0 then []
    else
      var rest := UsableNames(ms[1..]);
      assert forall m :: m in ms[1..] ==> m in ms;
      assert forall m :: m in ms ==> m == ms[0] || m in ms[1..];
      if Usable(ms[0]) then [ms[0].name] + rest else rest
  }

  /** Filtering respects concatenation, so the offered names keep the listing's relative order. */
  lemma {:induction false} UsableNamesAppend(a: seq<ModelInfo>, b: seq<ModelInfo>)
    ensures UsableNames(a + b) == UsableNames(a) + UsableNames(b)
    decreases |a|
  {
    if |a| > 0 {
      assert (a + b)[1..] == a[1..] + b;
      UsableNamesAppend(a[1..], b);
    } else {
      assert a + b == b;
    }
  }

  /** `get_available_models`: the usable names, or the single fallback when listing raises. */
  function AvailableModels(l: Listing): (names: seq<string>)
    ensures l.ListingFailed? ==> names == [FallbackModel]
    ensures l.Listed? ==> forall n :: n in names <==> exists m :: m in l.models && Usable(m) && m.name == n
    ensures l.Listed? ==> |names| <= |l.models|
  {
    match l
    case Listed(ms) => UsableNames(ms)
    case ListingFailed => [FallbackModel]
  }

  /** The default is the first name mentioning both `flash` and `1.5`. */
  predicate Preferred(name: string)
  {
    Contains(name, "flash") && Contains(name, "1.5")
  }

  /** The selector's default: the index of the first preferred name, else 0, and the name at that
      index; with no names at all, the hard-coded model that stands in for a selection. */
  method DefaultSelection(names: seq<string>) returns (index: nat, selected: string)
    ensures |names| == 0 ==> index == 0 && selected == NoModelsChoice
    ensures |names| > 0 ==> index < |names| && selected == names[index]
    ensures forall j :: 0 <= j < index && j < |names| ==> !Preferred(names[j])
    ensures (exists j :: 0 <= j < |names| && Preferred(names[j])) ==> Preferred(names[index])
    ensures (forall j :: 0 <= j < |names| ==> !Preferred(names[j])) ==> index == 0
  {
    if |names| == 0 {
      return 0, NoModelsChoice;
    }
    index := 0;
    var i := 0;
    while i < |names|
      invariant 0 <= i <= |names|
      invariant index == 0
      invariant forall j :: 0 <= j < i ==> !Preferred(names[j])
    {
      if Preferred(names[i]) {
        index := i;
        break;
      }
      i := i + 1;
    }
    selected := names[index];
  }
}

=== FILE: history.dfy ===
/** The chat-history log kept in `chat_history.json`: a JSON array of exchanges capped at the
    twenty most recent. The file is modelled by its decoded content; timestamps arrive as
    parameters instead of being read from the clock. */
module History {
  import opened Text

  /** Only the most recent `Capacity` exchanges are kept. */
  const Capacity: nat := 20

  /** Width of the timestamp label shown in the sidebar. */
  const StampWidth: nat := 16

  /** One saved exchange: `{timestamp, user, ai}`. */
  datatype Record = Record(timestamp: string, user: string, ai: string)

  /** The history file as the application finds it on disk. */
  datatype HistoryFile =
    | Missing                          // no file at the path
    | Unreadable                       // present, but `json.load` raises
    | Stored(records: seq<Record>)     // a decoded JSON array of records

  /** The records `save_history` starts from: a missing or undecodable file counts as empty. */
  function Readable(f: HistoryFile): seq<Record>
  {
    if f.Stored? then f.records else []
  }

  /** Python's `xs[-n:]` for `n > 0`: the last `n` elements, or all of `xs` when it is shorter. */
  function LastN<T>(xs: seq<T>, n: nat): (r: seq<T>)
    ensures |r| == Min(n, |xs|)
    ensures r == xs[|xs| - |r|..]
  {
    if |xs| <= n then xs else xs[|xs| - n..]
  }

  /** Startup: a missing history file is created holding `[]`; an existing one is left alone. */
  function EnsureFile(f: HistoryFile): (f': HistoryFile)
    ensures !f'.Missing?
    ensures Readable(f') == Readable(f)
    ensures f.Missing? ==> f' == Stored([])
    ensures !f.Missing? ==> f' == f
  {
    if f.Missing? then Stored([]) else f
  }

  /** The newest `n` of `xs + [x]` end with `x`, preceded by the newest of `xs` in order. */
  lemma LastNOfAppend<T>(xs: seq<T>, x: T, n: nat)
    requires n > 0
    ensures var r := LastN(xs + [x], n);
      && |r| == Min(n, |xs| + 1)
      && r[|r| - 1] == x
      && r[..|r| - 1] == xs[|xs| + 1 - |r|..]
  {
    var r := LastN(xs + [x], n);
    var k := |xs| + 1 - |r|;
    assert r == (xs + [x])[k..];
    assert r[|r| - 1] == (xs + [x])[|xs|];
    assert r[..|r| - 1] == (xs + [x])[k..|xs|];
    assert (xs + [x])[k..|xs|] == xs[k..];
  }

  /** `save_history`: append the exchange to what could be read and keep the newest `Capacity`. */
  function SaveHistory(f: HistoryFile, timestamp: string, user: string, ai: string): (f': HistoryFile)
    ensures f'.Stored?
    ensures |f'.records| == Min(Capacity, |Readable(f)| + 1)
    ensures f'.records[|f'.records| - 1] == Record(timestamp, user, ai)
    ensures f'.records[..|f'.records| - 1] == Readable(f)[|Readable(f)| + 1 - |f'.records|..]
    ensures !f.Stored? ==> f'.records == [Record(timestamp, user, ai)]
  {
    LastNOfAppend(Readable(f), Record(timestamp, user, ai), Capacity);
    Append(f, Record(timestamp, user, ai))
  }

  /** The write `save_history` performs: the readable records, then `r`, cut to the newest `Capacity`. */
  function Append(f: HistoryFile, r: Record): HistoryFile
  {
    Stored(LastN(Readable(f) + [r], Capacity))
  }

  /** The clear-history button: an existing file is overwritten with `[]`; a missing one stays missing. */
  function ClearHistory(f: HistoryFile): (f': HistoryFile)
    ensures Readable(f') == []
    ensures f'.Missing? <==> f.Missing?
    ensures !f'.Unreadable?
  {
    if f.Missing? then Missing else Stored([])
  }

  /** Saves the given exchanges one after another, oldest first. */
  function SaveAll(f: HistoryFile, batch: seq<Record>): HistoryFile
    decreases |batch|
  {
    if |batch| == 0 then f else SaveAll(Append(f, batch[0]), batch[1..])
  }

  /** Dropping a prefix that leaves at least `n` elements does not change the last `n`. */
  lemma LastNOfSuffix<T>(w: seq<T>, k: nat, n: nat)
    requires k <= |w| && |w| - k >= n
    ensures LastN(w[k..], n) == LastN(w, n)
  {
    assert w[k..][|w| - k - n..] == w[|w| - n..];
  }

  /** Dropping a prefix of `x` commutes with appending `y`. */
  lemma DropThenConcat<T>(x: seq<T>, y: seq<T>, k: nat)
    requires k <= |x|
    ensures x[k..] + y == (x + y)[k..]
  {
  }

  /** Truncating before appending more keeps the same newest `n` as truncating afterwards. */
  lemma LastNAbsorbs<T>(x: seq<T>, y: seq<T>, n: nat)
    ensures LastN(LastN(x, n) + y, n) == LastN(x + y, n)
  {
    if |x| > n {
      var k := |x| - n;
      assert LastN(x, n) == x[k..];
      DropThenConcat(x, y, k);
      LastNOfSuffix(x + y, k, n);
    }
  }

  /** Splitting off the first element and putting it back gives the same sequence. */
  lemma ConcatFirst<T>(x: seq<T>, batch: seq<T>)
    requires |batch| > 0
    ensures x + [batch[0]] + batch[1..] == x + batch
    ensures |batch| == 1 ==> x + [batch[0]] == x + batch
  {
    assert batch == [batch[0]] + batch[1..];
  }

  /** Any non-empty run of saves leaves the newest `Capacity` of the old records and the saved
      ones together, old first, in order. */
  lemma {:induction false} SaveAllKeepsNewest(f: HistoryFile, batch: seq<Record>)
    requires |batch| > 0
    ensures SaveAll(f, batch) == Stored(LastN(Readable(f) + batch, Capacity))
    decreases |batch|
  {
    var first := Readable(f) + [batch[0]];
    ConcatFirst(Readable(f), batch);
    if |batch| > 1 {
      calc {
        SaveAll(f, batch);
        SaveAll(Append(f, batch[0]), batch[1..]);
        { SaveAllKeepsNewest(Append(f, batch[0]), batch[1..]); }
        Stored(LastN(LastN(first, Capacity) + batch[1..], Capacity));
        { LastNAbsorbs(first, batch[1..], Capacity); }
        Stored(LastN(first + batch[1..], Capacity));
      }
    }
  }

  /** After at least `Capacity` saves nothing older than the batch survives: the file holds
      exactly the batch's newest `Capacity` exchanges, in the order they were saved. */
  lemma SaveManyEvictsOldest(f: HistoryFile, batch: seq<Record>)
    requires |batch| >= Capacity
    ensures SaveAll(f, batch) == Stored(batch[|batch| - Capacity..])
  {
    SaveAllKeepsNewest(f, batch);
    var all := Readable(f) + batch;
    assert all[|all| - Capacity..] == batch[|batch| - Capacity..];
  }

  /** One line of the sidebar's history viewer. */
  datatype Row = Row(stamp: string, user: string, ai: string)

  /** What the sidebar's history viewer shows. */
  datatype HistoryView =
    | NotYetCreated        // caption: the file is being created
    | Damaged              // error: the file is damaged
    | Rows(rows: seq<Row>) // newest first; an empty list shows the "empty" caption

  /** The sidebar label of a timestamp: every `T` becomes a space, then the first 16 characters. */
  function StampLabel(timestamp: string): (shown: string)
    ensures |shown| == Min(StampWidth, |timestamp|)
    ensures forall i :: 0 <= i < |shown| ==> shown[i] == (if timestamp[i] == 'T' then ' ' else timestamp[i])
  {
    Prefix(ReplaceChar(timestamp, 'T', ' '), StampWidth)
  }

  function RowOf(r: Record): Row
  {
    Row(StampLabel(r.timestamp), r.user, r.ai)
  }

  /** The records as sidebar rows, most recent first. */
  function NewestFirst(records: seq<Record>): (rows: seq<Row>)
    ensures |rows| == |records|
    ensures forall i :: 0 <= i < |rows| ==> rows[i] == RowOf(records[|records| - 1 - i])
  {
    if |records| == 0 then []
    else [RowOf(records[|records| - 1])] + NewestFirst(records[..|records| - 1])
  }

  /** The sidebar's history viewer. */
  function SidebarView(f: HistoryFile): (v: HistoryView)
    ensures v.NotYetCreated? <==> f.Missing?
    ensures v.Damaged? <==> f.Unreadable?
    ensures f.Stored? ==> v.Rows? && |v.rows| == |f.records|
    ensures v.Rows? ==> forall i :: 0 <= i < |v.rows| ==> v.rows[i] == RowOf(f.records[|f.records| - 1 - i])
  {
    match f
    case Missing => NotYetCreated
    case Unreadable => Damaged
    case Stored(records) => Rows(NewestFirst(records))
  }

  /** Clearing leaves nothing to show: the viewer shows either the creation caption or no rows. */
  lemma ClearedViewIsEmpty(f: HistoryFile)
    ensures SidebarView(ClearHistory(f)) == (if f.Missing? then NotYetCreated else Rows([]))
  {
  }
}

=== FILE: optional.dfy ===
/** An optional value, standing in for Python's `None` and for "key not in st.session_state". */
module Optional {

  datatype Option<+T> = None | Some(value: T)

  /** Python truthiness of an optional string: present and non-empty. */
  predicate Truthy(s: Option<string>)
  {
    s.Some? && s.value != ""
  }
}

=== FILE: session.dfy ===
/** The per-browser-session state machine: prompt resolution, one chat turn against the
    generation service, and the reset / clear-history controls. The service's reply and the
    clock are parameters; the page is redrawn by the framework and is not modelled. */
module Session {
  import opened Optional
  import opened Text
  import opened History
  import opened Transcript

  /** The prompts behind the four suggestion buttons of the welcome screen. */
  const SuggestedPrompts: seq<string> := [
    "ช่วยสรุป Concept หลักจากไฟล์ PDF นี้ให้หน่อย",
    "สอนวิธี Config VLAN และ Trunking บน Switch",
    "อธิบายหลักการทำงานของ OSPF แบบเข้าใจง่าย",
    "แนะนำขั้นตอนการ Troubleshoot เบื้องต้น"
  ]

  /** `st.session_state`: the messages, the staged suggestion, and the uploaded document. */
  datatype Session = Session(messages: seq<Message>, pending: Option<string>, document: Option<FileHandle>)

  /** Everything a turn can change: the session and the history file. */
  datatype App = App(session: Session, log: HistoryFile)

  /** What the service does with a request: streams text chunks to the end, or raises. */
  datatype Reply = Streamed(chunks: seq<string>) | Raised(error: string)

  /** The error shown in place of an answer. */
  datatype Notice =
    | QuotaExceeded(model: string)      // "429": pick another model
    | ModelUnavailable(model: string)   // "404": the key cannot use this model
    | Failed(error: string)             // anything else, with the raw error text
    | ConnectionLost                    // no document handle in the session

  /** One call of the service: the model, the history the chat starts from, and the new prompt. */
  datatype Request = Request(model: string, history: seq<Turn>, prompt: string)

  /** The state after a turn, the request sent (if any) and the error shown (if any). */
  datatype TurnResult = TurnResult(app: App, request: Option<Request>, notice: Option<Notice>)

  /** The prompt chosen for this run and the staged suggestion left behind. */
  datatype Resolution = Resolution(prompt: Option<string>, pending: Option<string>)

  /** A fresh session: no messages, nothing staged, and whatever the upload produced; the
      history file is created empty if it does not exist yet. */
  function Start(file: HistoryFile, document: Option<FileHandle>): (app: App)
    ensures app.session.messages == [] && app.session.pending == None
    ensures app.session.document == document
    ensures !app.log.Missing? && Readable(app.log) == Readable(file)
    ensures file.Missing? ==> app.log == Stored([])
    ensures !file.Missing? ==> app.log == file
  {
    App(Session([], None, document), EnsureFile(file))
  }

  /** Typed input wins; otherwise a staged suggestion is taken (and removed); otherwise nothing. */
  function ResolvePrompt(typed: Option<string>, pending: Option<string>): (r: Resolution)
    ensures Truthy(typed) ==> r.prompt == typed
    ensures !Truthy(typed) ==> r.prompt == pending
    ensures r.pending.Some? ==> r.pending == pending
    ensures (pending.Some? && r.pending.None?) <==> (pending.Some? && !Truthy(typed))
    ensures r.prompt.None? <==> (!Truthy(typed) && pending.None?)
  {
    if Truthy(typed) then Resolution(typed, pending)
    else if pending.Some? then Resolution(pending, None)
    else Resolution(None, None)
  }

  /** All chunk texts joined in order: the reference meaning of a streamed reply. */
  function Flatten(chunks: seq<string>): string
  {
    if |chunks| == 0 then "" else chunks[0] + Flatten(chunks[1..])
  }

  lemma {:induction false} FlattenSnoc(a: seq<string>, x: string)
    ensures Flatten(a + [x]) == Flatten(a) + x
    decreases |a|
  {
    if |a| == 0 {
      assert a + [x] == [x];
    } else {
      assert (a + [x])[1..] == a[1..] + [x];
      FlattenSnoc(a[1..], x);
    }
  }

  /** The streaming loop: each chunk with non-empty text is appended as it arrives. Skipping
      empty chunks loses nothing, so the reply is the whole stream. */
  function Accumulate(chunks: seq<string>): (reply: string)
    ensures reply == Flatten(chunks)
  {
    if |chunks| == 0 then ""
    else
      var earlier, last := chunks[..|chunks| - 1], chunks[|chunks| - 1];
      var sofar := Accumulate(earlier);
      assert earlier + [last] == chunks;
      FlattenSnoc(earlier, last);
      if last != "" then sofar + last else sofar
  }

  /** The error shown for an exception, chosen by the first code its text contains. */
  function Classify(error: string, model: string): (n: Notice)
    ensures n.QuotaExceeded? <==> exists i: nat :: OccursAt(error, "429", i)
    ensures n.ModelUnavailable? <==>
      (!(exists i: nat :: OccursAt(error, "429", i)) && exists i: nat :: OccursAt(error, "404", i))
    ensures (n.QuotaExceeded? || n.ModelUnavailable?) ==> n.model == model
    ensures n.Failed? ==> n.error == error
    ensures !n.ConnectionLost?
  {
    if Contains(error, "429") then QuotaExceeded(model)
    else if Contains(error, "404") then ModelUnavailable(model)
    else Failed(error)
  }

  /** The prompt a run works on. */
  function PromptOf(app: App, typed: Option<string>): Option<string>
  {
    ResolvePrompt(typed, app.session.pending).prompt
  }

  /** Whether a turn ended with a completed stream. */
  predicate Answered(r: TurnResult, reply: Reply)
  {
    r.request.Some? && reply.Streamed?
  }

  /** The turn for `prompt`, once one was chosen: append the user turn; without a document
      report the lost connection; otherwise call the service with the replayed history and
      either record the streamed answer or classify the exception. */
  function Ask(s: Session, log: HistoryFile, prompt: string, model: string, timestamp: string, reply: Reply): (r: TurnResult)
    ensures r.app.session.pending == s.pending && r.app.session.document == s.document
    // The user turn is appended first, whatever happens next.
    ensures |r.app.session.messages| > |s.messages|
    ensures r.app.session.messages[..|s.messages| + 1] == s.messages + [Message(UserRole, prompt)]
    // The service is called exactly when there is a document.
    ensures r.request.Some? <==> s.document.Some?
    ensures s.document.None? ==> r.notice == Some(ConnectionLost)
    // The request replays every earlier message, in order, after the seed turn.
    ensures r.request.Some? ==>
      && r.request.value.model == model
      && r.request.value.prompt == prompt
      && |r.request.value.history| == |s.messages| + 1
      && r.request.value.history[0] == SeedTurn(s.document.value)
      && forall k :: 0 <= k < |s.messages| ==> r.request.value.history[k + 1] == Replayed(s.messages[k])
    // A completed stream adds the answer to the session and one record to the log.
    ensures Answered(r, reply) ==>
      && r.app.session.messages
         == s.messages + [Message(UserRole, prompt), Message(AssistantRole, Flatten(reply.chunks))]
      && r.app.log == SaveHistory(log, timestamp, prompt, Flatten(reply.chunks))
      && r.notice.None?
    // Anything else leaves the log alone and the user turn last.
    ensures !Answered(r, reply) ==>
      r.app.log == log && r.app.session.messages == s.messages + [Message(UserRole, prompt)]
    ensures r.request.Some? && reply.Raised? ==> r.notice == Some(Classify(reply.error, model))
  {
    var asked := s.messages + [Message(UserRole, prompt)];
    assert asked[..|s.messages| + 1] == asked;
    if s.document.None? then
      TurnResult(App(s.(messages := asked), log), None, Some(ConnectionLost))
    else
      HistoryRecoversMessages(s.document.value, s.messages, Message(UserRole, prompt));
      var request := Request(model, BuildHistory(s.document.value, asked), prompt);
      match reply
      case Raised(error) =>
        TurnResult(App(s.(messages := asked), log), Some(request), Some(Classify(error, model)))
      case Streamed(chunks) =>
        var answer := Accumulate(chunks);
        var answered := asked + [Message(AssistantRole, answer)];
        assert answered[..|s.messages| + 1] == asked;
        TurnResult(App(s.(messages := answered), SaveHistory(log, timestamp, prompt, answer)), Some(request), None)
  }

  /** One run of the chat panel with `typed` in the input box (if anything), `model` selected,
      `timestamp` as the clock, and `reply` as what the service does with the request. The
      prompt is resolved first; an empty or absent prompt processes no turn. */
  function Submit(app: App, typed: Option<string>, model: string, timestamp: string, reply: Reply): (r: TurnResult)
    ensures r.app.session.pending == ResolvePrompt(typed, app.session.pending).pending
    ensures r.app.session.document == app.session.document
    // Without a prompt nothing else changes and nothing is sent.
    ensures !Truthy(PromptOf(app, typed)) ==>
      && r.app.session.messages == app.session.messages
      && r.app.log == app.log && r.request.None? && r.notice.None?
    // With a prompt it is the user turn that is appended, and only a completed stream
    // touches the log.
    ensures Truthy(PromptOf(app, typed)) ==>
      && |r.app.session.messages| > |app.session.messages|
      && r.app.session.messages[..|app.session.messages| + 1]
        == app.session.messages + [Message(UserRole, PromptOf(app, typed).value)]
    ensures r.request.Some? <==> Truthy(PromptOf(app, typed)) && app.session.document.Some?
    ensures r.request.Some? ==> r.request.value.prompt == PromptOf(app, typed).value
    ensures !Answered(r, reply) ==> r.app.log == app.log
    ensures Answered(r, reply) ==>
      r.app.log == SaveHistory(app.log, timestamp, PromptOf(app, typed).value, Flatten(reply.chunks))
  {
    var res := ResolvePrompt(typed, app.session.pending);
    var session := app.session.(pending := res.pending);
    if !Truthy(res.prompt) then
      TurnResult(app.(session := session), None, None)
    else
      Ask(session, app.log, res.prompt.value, model, timestamp, reply)
  }

  /** A click on a suggestion button, which is drawn only while there are no messages. */
  function StagePrompt(s: Session, index: nat): (s': Session)
    ensures s'.messages == s.messages && s'.document == s.document
    ensures s'.pending != s.pending ==> |s.messages| == 0 && index < |SuggestedPrompts|
    ensures |s.messages| == 0 && index < |SuggestedPrompts| ==> s'.pending == Some(SuggestedPrompts[index])
  {
    if |s.messages| == 0 && index < |SuggestedPrompts| then s.(pending := Some(SuggestedPrompts[index])) else s
  }

  /** A staged suggestion is what the next run submits when nothing is typed, and it is used up. */
  lemma SuggestionIsSubmitted(app: App, index: nat, model: string, timestamp: string, reply: Reply)
    requires |app.session.messages| == 0 && index < |SuggestedPrompts|
    ensures var r := Submit(app.(session := StagePrompt(app.session, index)), None, model, timestamp, reply);
      && r.app.session.pending.None?
      && r.app.session.messages[0] == Message(UserRole, SuggestedPrompts[index])
  {
    var staged := app.(session := StagePrompt(app.session, index));
    assert PromptOf(staged, None) == Some(SuggestedPrompts[index]);
    assert SuggestedPrompts[index] != "";
  }

  /** The events a session reacts to. */
  datatype Event =
    | ResetChat
    | ClearChatHistory
    | SuggestionClicked(index: nat)
    | Render(typed: Option<string>, model: string, timestamp: string, reply: Reply)

  /** The log holds no more than `Capacity` records. */
  predicate LogWithinCapacity(app: App)
  {
    |Readable(app.log)| <= Capacity
  }

  /** The effect of one event. Every interaction re-runs the whole page, so the startup step
      that creates a missing history file runs first; then reset empties the messages only, and
      clear-history empties the messages and the log file. */
  function Step(app: App, e: Event): (next: App)
    ensures next.session.document == app.session.document
    ensures !next.log.Missing?
    ensures app.log.Missing? ==> next.log.Stored?
    ensures !e.Render? && !e.ClearChatHistory? ==> next.log == EnsureFile(app.log)
    ensures e.ResetChat? ==> next.session.messages == [] && Readable(next.log) == Readable(app.log)
    ensures e.ResetChat? && !app.log.Missing? ==> next.log == app.log
    ensures e.ClearChatHistory? ==> next.session.messages == [] && next.log == Stored([])
    ensures (e.ResetChat? || e.ClearChatHistory?) ==> next.session.pending == app.session.pending
    ensures LogWithinCapacity(app) ==> LogWithinCapacity(next)
    ensures e.Render? ==> |Readable(next.log)| <= |Readable(app.log)| + 1
  {
    var rerun := app.(log := EnsureFile(app.log));
    match e
    case ResetChat => rerun.(session := rerun.session.(messages := []))
    case ClearChatHistory => App(rerun.session.(messages := []), ClearHistory(rerun.log))
    case SuggestionClicked(index) => rerun.(session := StagePrompt(rerun.session, index))
    case Render(typed, model, timestamp, reply) => Submit(rerun, typed, model, timestamp, reply).app
  }

  /** The events applied in order. */
  function Run(app: App, events: seq<Event>): App
    decreases |events|
  {
    if |events| == 0 then app else Run(Step(app, events[0]), events[1..])
  }

  /** However many events follow, a log within capacity stays within capacity, the history
      file exists once any event was handled, and the uploaded document is never lost or replaced. */
  lemma {:induction false} RunKeepsInvariants(app: App, events: seq<Event>)
    requires LogWithinCapacity(app)
    ensures LogWithinCapacity(Run(app, events))
    ensures |events| > 0 || !app.log.Missing? ==> !Run(app, events).log.Missing?
    ensures Run(app, events).session.document == app.session.document
    decreases |events|
  {
    if |events| > 0 {
      RunKeepsInvariants(Step(app, events[0]), events[1..]);
    }
  }

  /** A session started on a history file holding at most `Capacity` records (a missing,
      unreadable or empty file included) never holds more, and never loses its file, whatever
      the user does. */
  lemma StartedSessionLogBounded(file: HistoryFile, document: Option<FileHandle>, events: seq<Event>)
    requires |Readable(file)| <= Capacity
    ensures |Readable(Run(Start(file, document), events).log)| <= Capacity
    ensures !Run(Start(file, document), events).log.Missing?
  {
    RunKeepsInvariants(Start(file, document), events);
  }
}

=== FILE: text.dfy ===
/** The few string operations the application relies on, with Python's meaning. */
module Text {

  /** `sub` occurs in `s` starting at index `i`. */
  predicate OccursAt(s: string, sub: string, i: nat)
  {
    i + |sub| <= |s| && s[i..i + |sub|] == sub
  }

  /** An occurrence in `s[1..]` is an occurrence in `s` one position later. */
  lemma ShiftOccurrence(s: string, sub: string, i: nat)
    requires |s| > 0
    ensures OccursAt(s[1..], sub, i) <==> OccursAt(s, sub, i + 1)
  {
    if i + |sub| <= |s[1..]| {
      assert s[1..][i..i + |sub|] == s[i + 1..i + 1 + |sub|];
    }
  }

  /** When `sub` does not start `s`, it occurs in `s` exactly when it occurs in `s[1..]`. */
  lemma DropFirst(s: string, sub: string)
    requires |s| > 0 && !OccursAt(s, sub, 0)
    ensures (exists i: nat :: OccursAt(s[1..], sub, i)) <==> (exists i: nat :: OccursAt(s, sub, i))
  {
    if exists i: nat :: OccursAt(s, sub, i) {
      var i: nat :| OccursAt(s, sub, i);
      assert i > 0;
      ShiftOccurrence(s, sub, i - 1);
    }
    if exists i: nat :: OccursAt(s[1..], sub, i) {
      var i: nat :| OccursAt(s[1..], sub, i);
      ShiftOccurrence(s, sub, i);
    }
  }

  /** Python's `sub in s` for strings, as a left-to-right scan. */
  function Contains(s: string, sub: string): (b: bool)
    ensures b <==> exists i: nat :: OccursAt(s, sub, i)
    decreases |s|
  {
    if |sub| <= |s| && s[..|sub|] == sub then
      assert OccursAt(s, sub, 0);
      true
    else if |s| == 0 then
      false
    else
      DropFirst(s, sub);
      Contains(s[1..], sub)
  }

  /** Python's `s.replace(from, to)` where both arguments are single characters. */
  function ReplaceChar(s: string, from: char, to: char): (r: string)
    ensures |r| == |s|
    ensures forall i :: 0 <= i < |s| ==> r[i] == (if s[i] == from then to else s[i])
  {
    if |s| == 0 then "" else [if s[0] == from then to else s[0]] + ReplaceChar(s[1..], from, to)
  }

  function Min(a: int, b: int): int
  {
    if a <= b then a else b
  }

  /** Python's `s[:n]`: the first `n` characters, or all of `s` when it is shorter. */
  function Prefix(s: string, n: nat): (r: string)
    ensures |r| == Min(n, |s|)
    ensures r <= s
  {
    if |s| <= n then s else s[..n]
  }
}

=== FILE: transcript.dfy ===
/** The conversation history handed to the generation service at the start of each chat. */
module Transcript {

  const UserRole := "user"
  const AssistantRole := "assistant"
  const ModelRole := "model"

  /** The instruction sent next to the document in the seed turn. */
  const SeedInstruction := "Answer based on this file. Do not use outside knowledge."

  /** A message of the session: `{role, content}`. */
  datatype Message = Message(role: string, content: string)

  /** The service's reference to the uploaded document; its contents are opaque here. */
  datatype FileHandle = FileHandle(name: string)

  /** One part of a service turn: the uploaded document or a piece of text. */
  datatype Part = FilePart(file: FileHandle) | TextPart(text: string)

  /** One turn of the service's history: `{role, parts}`. */
  datatype Turn = Turn(role: string, parts: seq<Part>)

  /** The first turn of every history: the document plus the instruction to answer from it. */
  function SeedTurn(file: FileHandle): Turn
  {
    Turn(UserRole, [FilePart(file), TextPart(SeedInstruction)])
  }

  /** The service knows only `user` and `model`: assistant messages become `model` turns. */
  function ServiceRole(role: string): (r: string)
    ensures r == ModelRole <==> role == AssistantRole
    ensures r == UserRole <==> role != AssistantRole
  {
    if role == AssistantRole then ModelRole else UserRole
  }

  /** A session message as a service turn. */
  function Replayed(m: Message): Turn
  {
    Turn(ServiceRole(m.role), [TextPart(m.content)])
  }

  /** The messages as service turns, one for one and in order. */
  function ReplayAll(messages: seq<Message>): (turns: seq<Turn>)
    ensures |turns| == |messages|
    ensures forall k :: 0 <= k < |messages| ==> turns[k] == Replayed(messages[k])
  {
    if |messages| == 0 then [] else [Replayed(messages[0])] + ReplayAll(messages[1..])
  }

  /** Python's `messages[:-1]`: every message but the newest. */
  function Prior(messages: seq<Message>): (p: seq<Message>)
    ensures |p| == if |messages| == 0 then 0 else |messages| - 1
    ensures forall k :: 0 <= k < |p| ==> p[k] == messages[k]
  {
    if |messages| == 0 then [] else messages[..|messages| - 1]
  }

  /** The history the chat is started with: the seed turn, then every message except the newest
      (which is sent separately as the new prompt). */
  function BuildHistory(file: FileHandle, messages: seq<Message>): (history: seq<Turn>)
    ensures |messages| > 0 ==> |history| == |messages|
    ensures |messages| == 0 ==> history == [SeedTurn(file)]
    ensures history[0] == SeedTurn(file)
    ensures forall k :: 0 <= k < |messages| - 1 ==> history[k + 1] == Replayed(messages[k])
    ensures forall k :: 0 <= k < |messages| - 1 ==>
      && history[k + 1].parts == [TextPart(messages[k].content)]
      && (history[k + 1].role == ModelRole <==> messages[k].role == AssistantRole)
      && (history[k + 1].role == UserRole <==> messages[k].role != AssistantRole)
  {
    var replayed := ReplayAll(Prior(messages));
    var history := [SeedTurn(file)] + replayed;
    assert forall k :: 0 <= k < |replayed| ==> history[k + 1] == replayed[k];
    history
  }

  /** The text a replayed turn carries. */
  function TurnText(t: Turn): string
  {
    if |t.parts| == 1 && t.parts[0].TextPart? then t.parts[0].text else ""
  }

  /** When a new message is sent, the history replays every earlier message one for one, in
      order, after the seed turn; reading texts and roles back gives those messages again (with
      the assistant/user distinction the service keeps): nothing is dropped, added or reordered. */
  lemma HistoryRecoversMessages(file: FileHandle, prior: seq<Message>, newest: Message)
    ensures var h := BuildHistory(file, prior + [newest]);
      && |h| == |prior| + 1
      && h[0] == SeedTurn(file)
      && (forall k :: 0 <= k < |prior| ==> h[k + 1] == Replayed(prior[k]))
      && (forall k :: 0 <= k < |prior| ==> TurnText(h[k + 1]) == prior[k].content)
      && (forall k :: 0 <= k < |prior| ==> (h[k + 1].role == ModelRole <==> prior[k].role == AssistantRole))
  {
    var asked := prior + [newest];
    assert Prior(asked) == prior;
    var h := BuildHistory(file, asked);
    assert h == [SeedTurn(file)] + ReplayAll(prior);
    forall k | 0 <= k < |prior|
      ensures h[k + 1] == Replayed(prior[k])
    {
      assert h[k + 1] == ReplayAll(prior)[k];
    }
  }

  /** Replaying respects concatenation: each new exchange only extends the history at its end. */
  lemma {:induction false} ReplayAllAppend(a: seq<Message>, b: seq<Message>)
    ensures ReplayAll(a + b) == ReplayAll(a) + ReplayAll(b)
    decreases |a|
  {
    if |a| > 0 {
      assert (a + b)[1..] == a[1..] + b;
      ReplayAllAppend(a[1..], b);
    } else {
      assert a + b == b;
    }
  }
}
